=== FILE: README.md ===
# nefertari manage_index: chunked reindexing, modelled in Dafny

`manage_index.py` is a command-line tool for a nefertari application. It pushes the
records of the application's document store (a SQL database behind nefertari's engine)
into the application's Elasticsearch index. This project models its core:

- `available_models`: which models may be indexed.
- `recreate_index` and `recreate_mapping`, as updates of an abstract index state.
- `reindextask`: one model's collection is counted, cut into `count // boxsize + 1`
  boxes, and each box is fetched in primary-key order and sent with an upsert.
- the part of `main` that picks the models (`--recreate`, `--list-models`, `--models`),
  rejects an unknown name with a `ValueError` before any per-model work, and then
  processes the models in list order, `recreate_mapping` before `reindextask` under
  `--delete_mapping`.

Modules:

- `Outcomes`: `Option`, and the errors that can end a run.
- `Documents`: records, index documents, and the `to_dicts` projection.
- `Batching`: boxes, what one box fetches, the box plan of a pass, why the plan covers the
  collection exactly once, and Python's floor division.
- `SearchIndex`: the index state (per model a mapping and documents keyed by identity),
  the upsert that `es.index` performs, `recreate_mapping` and `recreate_index`.
- `ModelRegistry`: the engine's document classes and `available_models`.
- `Reindex`: `reindextask` as a method with a loop over the boxes.
- `ManageIndex`: `main` from the parsed command line on.

The database and the index are values, not connections:

- A model's collection is the sequence of its records in the order `_sort=pk` returns them.
- The index is an `IndexState`.
- A store outage is a parameter. `outage` gives the box at which a pass fails;
  `outages` gives that box per model for a whole run. An outage in one model's pass
  ends the run there, as an exception escaping `reindextask` ends `main`. Later models
  are then not processed.

## Model

| member | source | states |
|---|---|---|
| `ModelRegistry.EnabledNames` | manage_index.py:32-33 | a name is kept exactly when its class is index-enabled; distinct names stay distinct |
| `ModelRegistry.EnabledNamesInOrder` | manage_index.py:32-33 | the list comprehension keeps the dictionary's order: of two names it keeps, the earlier one comes first in the registry too |
| `ModelRegistry.AvailableModels` | manage_index.py:30-33 | the available models are exactly the registered models whose `_index_enabled` is set to true (a missing attribute counts as false), each listed once, in registry order (the order `--recreate` then processes them in) |
| `SearchIndex.IndexState.RecreateMapping` | manage_index.py:44-54 | deleting and putting back a model's mapping drops every document of that model, installs the mapping, and leaves other models' documents and mappings as they were |
| `SearchIndex.IndexState.Index` | manage_index.py:103 | `es.index` writes to one model only: mappings and other models' documents are unchanged; the model's identities grow by exactly the batch's |
| `SearchIndex.IndexIsUnion` | manage_index.py:103 | after `es.index` the model holds exactly its earlier documents overridden by the batch's last document per identity |
| `SearchIndex.Latest` | manage_index.py:103 | writing a batch leaves, per identity in the batch, one document with that identity, taken from the batch |
| `SearchIndex.Upsert` | manage_index.py:103-108 | the indexed identities grow by the batch's identities; identities not in the batch keep their document; the others hold the batch's last document for them |
| `SearchIndex.UpsertIsUnion` | manage_index.py:103-108 | an upsert overrides the indexed documents with the batch's last documents per identity |
| `SearchIndex.LatestAppend` | manage_index.py:95-103 | for two batches written one after the other, each identity ends up with its document from the later batch when the later batch has one |
| `SearchIndex.UpsertAppend` | manage_index.py:95-103 | two upserts in a row act as one upsert of the two batches concatenated |
| `SearchIndex.UpsertIdempotent` | manage_index.py:104-108 | sending the same batch twice leaves what sending it once leaves |
| `SearchIndex.UpsertOfPresentIsNoop` | manage_index.py:104-108 | a batch whose documents are all indexed already, unchanged, leaves the index as it was |
| `SearchIndex.IdsOfToDicts` | manage_index.py:98-100 | the identities of the documents sent are the primary keys of the records fetched |
| `SearchIndex.LatestOfPkOrdered` | manage_index.py:98-100 | for pk-ordered records (strictly increasing primary keys), writing their documents leaves one document per record, the record's own projection, and nothing else |
| `SearchIndex.IndexAppend` | manage_index.py:95-103 | two writes to the same model act as one write of the concatenated batches, empty batches included |
| `SearchIndex.IndexIdempotent` | manage_index.py:104-108 | re-sending a batch to a model leaves the whole index unchanged |
| `SearchIndex.ResetThenIndexIsExact` | manage_index.py:44-54 | after a mapping reset, indexing a batch leaves exactly that batch's documents under the model |
| `Documents.ToDoc` | manage_index.py:100 | a record's document is identified by the record's primary key |
| `Documents.ToDicts` | manage_index.py:100 | `to_dicts` yields one document per record |
| `Documents.ToDictsAppend` | manage_index.py:100 | `to_dicts` maps each record to its own document in place, so it commutes with concatenation |
| `Batching.Fetch` | manage_index.py:98-99 | a page holds at most `limit` records; it is the consecutive run of sorted records from offset `page * limit`, cut at the end of the collection; it is empty past the end |
| `Batching.Plan` | manage_index.py:84-95 | an empty collection walks no box; otherwise `count // boxsize + 1` boxes, box `n` being page `n` with limit `boxsize` |
| `Batching.FetchExtendsPrefix` | manage_index.py:98-99 | box `n` starts exactly where boxes `0 .. n-1` stop: no gap and no overlap |
| `Batching.GatherPrefix` | manage_index.py:95-99 | boxes `0 .. n-1` fetch exactly the first `n * boxsize` records, in order |
| `Batching.PlanReachesEnd` | manage_index.py:93-95 | the extra box takes the walk past the last record |
| `Batching.PlanCovers` | manage_index.py:88-99 | the boxes of a pass fetch the whole collection, each record once, in primary-key order |
| `Batching.BoxSizes` | manage_index.py:88-102 | every box but the last is full; the last box holds `rest = count % boxsize` records, and it is empty exactly when `rest` is 0 |
| `Batching.BoxOfOffset` | manage_index.py:98-99 | offset `pos` lies in box `i` exactly when `i == pos // boxsize` |
| `Batching.EachRecordInOneBox` | manage_index.py:88-99 | each record of a non-empty collection lies in exactly one box of the plan, box `pos // boxsize` |
| `Batching.FloorDiv` | manage_index.py:88 | Python's `//` is the floor of the quotient, for either sign of the divisor |
| `Batching.BoxesAsWritten` | manage_index.py:84-95 | as written, the number of boxes walked is 0 for an empty collection, and the plan's length for a positive box size |
| `Batching.NegativeBoxsizeWalksNoBox` | manage_index.py:88-95 | as written, a negative box size walks no box for a non-empty collection |
| `Batching.NegativeBoxsizeExample` | manage_index.py:88-95 | 12000 records with box size -5000 walk no box, where box size 5000 walks 3 |
| `Reindex.PagesStep` | manage_index.py:95-100 | one more box sends one more page, the next one |
| `Reindex.SendBox` | manage_index.py:95-103 | after box `n` the documents sent are exactly those of the first `(n + 1) * boxsize` records, in order |
| `Reindex.CompletedPassIndexesAll` | manage_index.py:95-108 | sending a pk-ordered collection whole leaves every record indexed as its own document |
| `Reindex.SendNext` | manage_index.py:95-103 | fetching and sending box `n` after boxes `0 .. n-1` extends the documents sent to the first `(n + 1) * boxsize` records, and the index by one write equal to a single write of everything sent |
| `Reindex.SentThroughPlan` | manage_index.py:88-99 | the `count // boxsize + 1` boxes of the plan send the whole collection |
| `Reindex.SendBoxes` | manage_index.py:95-103 | the box loop sends page `n` for each box `n` it reaches, the boxes sent carry the first records in order with no gap, and the index holds them; it runs all `count // boxsize + 1` boxes exactly when no outage falls among them, and otherwise stops at the failing box |
| `Reindex.ReindexTask` | manage_index.py:78-108 | an empty collection means no fetch and no write; a zero box size raises before any write; box `n` sends page `n`; the pass completes exactly when no outage falls within its `count // boxsize + 1` boxes, and it stops at the failing box; a failing pass leaves in the index exactly the boxes sent before the failure; a completed pass sent every record once, in order, leaving every record indexed; mappings and other models are untouched |
| `ManageIndex.FirstUnknown` | manage_index.py:145-149 | no name is reported exactly when every requested model is available; a reported name was requested and is not available |
| `ManageIndex.FirstUnknownIsFirst` | manage_index.py:146-149 | the reported name is the first unavailable one in request order |
| `ManageIndex.ReindexIsExact` | manage_index.py:152-155 | reindexing a model that holds no document, or exactly its collection already, leaves exactly its collection |
| `ManageIndex.TurnEffect` | manage_index.py:152-155 | a model's turn leaves all its records indexed and does not touch other models' documents; after a mapping reset, or on an empty or already exact model, it leaves exactly the collection |
| `ManageIndex.TurnsIndexAll` | manage_index.py:152-155 | after the turns of a list of models, every record of every listed model is indexed |
| `ManageIndex.TurnsOnEmptyAreExact` | manage_index.py:135-155 | turns on an index without documents leave exactly the listed models' collections, and nothing for any other model, registered or not |
| `ManageIndex.TurnsKeepMappings` | manage_index.py:152-155 | turns keep the mappings when each model already holds its own mapping |
| `ManageIndex.TurnUntouched` | manage_index.py:44-54 | a turn leaves every other model's documents and mapping as they were, and without `--delete_mapping` no mapping changes |
| `ManageIndex.TurnsFrame` | manage_index.py:152-155 | turns leave every model not turned with its documents and mapping, and without `--delete_mapping` no mapping changes |
| `ManageIndex.StoppedFrame` | manage_index.py:152-155 | a loop stopped at a failing model leaves every model not in the list untouched, and changes no mapping without `--delete_mapping` or when the mappings were already in place |
| `ManageIndex.RecreatedIndex` | manage_index.py:35-42 | `recreate_index` leaves no document and the mapping of every available model in place |
| `ManageIndex.CompletedTurns` | manage_index.py:35-42 | `recreate_index` followed by completed turns of every available model leaves exactly the available models' mappings and collections, and no document of any other model, registered or not; without it, completed turns index every record of every processed model |
| `ManageIndex.ProcessModel` | manage_index.py:152-155 | one model's turn is `recreate_mapping` (under `--delete_mapping`), then `reindextask`; on success the model's records are all indexed; only that model's mapping may change, and no other model's documents change even when the turn fails; a failing turn leaves the model with its documents before the turn (none under `--delete_mapping`) overridden by the boxes sent before the failure; a positive box size with no outage cannot fail, and with a positive box size the only failure is the store outage, at the box it names |
| `ManageIndex.ProcessNext` | manage_index.py:152-155 | one pass of the per-model loop extends the calls by that model's calls and the index by that model's turn; when the pass fails, every other model keeps its documents, and the loop is stopped at this model as `StoppedAt` describes |
| `ManageIndex.ProcessModels` | manage_index.py:152-155 | models run in list order with `recreate_mapping` before `reindextask`; the calls made are a prefix of that order, all of it on success; when model `k` fails, the calls end with model `k`'s calls, so no later model is processed, every other model holds what the turns of the models before `k` left, model `k` keeps the boxes it sent before the failure, and its mapping is recreated under `--delete_mapping`; models not in the list keep their documents and mapping, and without `--delete_mapping` no mapping changes |
| `ManageIndex.RunModels` | manage_index.py:135-155 | past the name check: `recreate_index` first under `--recreate`; on success every selected model is fully indexed, and after `--recreate` the index holds exactly the available models' mappings and collections, with no document of an unregistered model; under `--recreate` the mappings are the available models' even after a failure; without `--recreate`, models not selected keep their documents and mapping, and without `--delete_mapping` too no mapping changes; a failure ends the calls with one selected model's calls |
| `ManageIndex.Run` | manage_index.py:133-155 | `--list-models` lists and changes nothing, even with `--recreate`; `--recreate` selects every available model and ignores `--models`; an unknown name raises before any call and leaves the index unchanged; otherwise the calls follow list order, and a failing pass ends them with that model's calls; a completed `--recreate` run holds exactly the available models' collections, and any `--recreate` run their mappings; without `--recreate`, models not selected keep their documents and mapping, and without `--delete_mapping` too no mapping changes; a positive box size with no outage completes |

## Left out

- `parse_args`, `parse_vars`, the settings, and the logging set-up (manage_index.py:56-76, 112-116): the model starts from the parsed arguments (`Args`).
- The pyramid bootstrap, the `Configurator` include, the `_mappings_setup` flag and `ES.setup` (manage_index.py:118-131): environment set-up, with no effect on what gets indexed.
- Log messages (manage_index.py:91-92, 96-97, 101) and the printed model list (manage_index.py:139-141): a listing is recorded only as the `ListStep` action.
- The Elasticsearch client calls are modelled by their effect on `IndexState` only. This covers delete/create index, `setup_mappings`, `delete_mapping`, `put_mapping` and `index`. `ES.setup_mappings` is taken to push the mapping of every index-enabled model; its code is not part of this model.
- An `es.index` call with an empty batch is modelled as writing nothing.
- Per-document errors of a bulk write are not modelled. A store failure is modelled only as a whole pass failing at one box (the `outage` parameters).
- The engine's `get_collection` is modelled as reading a fixed sequence of records in primary-key order. Concurrent writes to the database during a pass are not modelled.
- `to_dicts`: only its shape is modelled (one document per record, identified by the primary key). How fields are serialised is not modelled.
- The producer/consumer speed-up (manage_index.py:23-25) exists only as a comment in the source.
- The missing control that the last box holds `rest` records (manage_index.py:102) does not exist in the source. `Batching.BoxSizes` proves what it would have checked.
- Reindex.ReindexTask: for a negative `--boxsize` and a non-empty collection it models the corrected pass (see Findings) and ends with `NegativeBoxsize` before any write. `reindextask` as written walks no box and returns normally, having sent nothing; `Batching.BoxesAsWritten` models that.
- ManageIndex.ProcessModel: uses the corrected pass, so a negative box size ends the model's turn with `NegativeBoxsize`. As written, the turn returns normally having indexed nothing (and, under `--delete_mapping`, having dropped the model's documents), so "on success every record is indexed" is the corrected program's promise only.
- ManageIndex.RunModels: with a negative box size it stops at the first model with a non-empty collection, with `NegativeBoxsize`. As written, `main` processes every selected model, sends no document of any non-empty one, and exits normally. Its promises about completed runs are those of the corrected program.
- ManageIndex.Run: the same as `RunModels` for a negative box size. A normal exit of `main` as written does not mean every record was indexed; in the model it does.

## Findings

| source | as written | input that shows it | evidently intended | confidence | as-written member | corrected member |
|---|---|---|---|---|---|---|
| manage_index.py:88-95 | `boxes = count // boxsize`, then `range(boxes+1)`; any non-zero `--boxsize` is accepted | 12000 records with `--boxsize -5000`: `12000 // -5000` is -3 and `range(-2)` is empty, so the pass returns normally having sent no document | a non-positive box size is refused, so that a normal return means the whole collection was sent | medium, not executed | `Batching.NegativeBoxsizeExample` | `Reindex.ReindexTask` |

- As written: `Batching.BoxesAsWritten` counts the boxes with Python's floor division. `Batching.NegativeBoxsizeWalksNoBox` proves that every negative box size walks no box for a non-empty collection. `Batching.NegativeBoxsizeExample` gives the concrete input.
- Corrected: `Reindex.ReindexTask` ends a non-empty pass with a negative box size with the `NegativeBoxsize` error, before anything is written. Its contract proves that a pass that returns without an error has sent, and indexed, every record.

=== FILE: batching.dfy ===
/** The batch planner of `reindextask`: box descriptors, what one box fetches from the
    pk-sorted collection, and why the boxes cover the collection exactly once. */
module Batching {

  /** One box: page `page` with limit `limit` of the collection sorted by primary key,
      that is the records at offsets `page * limit` up to (excluding) `page * limit + limit`. */
  datatype Box = Box(page: nat, limit: nat)

  function Min(a: int, b: int): int
  {
    if a <= b then a else b
  }

  /** First offset of box `b`. */
  function Offset(b: Box): nat
  {
    b.page * b.limit
  }

  /** `get_collection(_limit=b.limit, _page=b.page, _sort=pk)` against the pk-sorted
      collection `sorted`: up to `limit` consecutive records starting at the box's offset. */
  function Fetch<T>(sorted: seq<T>, b: Box): (page: seq<T>)
    ensures |page| <= b.limit
    ensures Offset(b) < |sorted| ==> |page| == Min(b.limit, |sorted| - Offset(b))
    ensures |sorted| <= Offset(b) ==> page == []
    ensures forall i :: 0 <= i < |page| ==> page[i] == sorted[Offset(b) + i]
  {
    sorted[Min(Offset(b), |sorted|)..Min(Offset(b) + b.limit, |sorted|)]
  }

  /** Boxes 0 .. n-1, all with limit `boxsize`. */
  function Boxes(n: nat, boxsize: nat): seq<Box>
  {
    seq(n, i requires 0 <= i => Box(i, boxsize))
  }

  /** The boxes `reindextask` walks for a collection of `count` records: none when the
      collection is empty (the early return), otherwise `count / boxsize + 1` boxes. */
  function Plan(count: nat, boxsize: nat): (plan: seq<Box>)
    requires boxsize > 0
    ensures count < 1 ==> plan == []
    ensures count >= 1 ==> |plan| == count / boxsize + 1
    ensures forall i :: 0 <= i < |plan| ==> plan[i] == Box(i, boxsize)
  {
    if count < 1 then [] else Boxes(count / boxsize + 1, boxsize)
  }

  /** The records fetched by the boxes of `plan`, in plan order. */
  function Gather<T>(sorted: seq<T>, plan: seq<Box>): seq<T>
  {
    if |plan| == 0 then [] else Gather(sorted, plan[..|plan| - 1]) + Fetch(sorted, plan[|plan| - 1])
  }

  /** Box `n` starts exactly where boxes 0 .. n-1 stop: no gap and no overlap. */
  lemma FetchExtendsPrefix<T>(sorted: seq<T>, boxsize: nat, n: nat)
    requires boxsize > 0
    ensures sorted[..Min(n * boxsize, |sorted|)] + Fetch(sorted, Box(n, boxsize))
         == sorted[..Min(n * boxsize + boxsize, |sorted|)]
  {
  }

  /** Dropping the last of `n` boxes leaves the first `n - 1` boxes. */
  lemma BoxesPrefix(n: nat, boxsize: nat)
    requires n > 0
    ensures Boxes(n, boxsize)[..n - 1] == Boxes(n - 1, boxsize)
    ensures Boxes(n, boxsize)[n - 1] == Box(n - 1, boxsize)
  {
  }

  /** Boxes 0 .. n-1 together fetch the first `n * boxsize` records, each once, in order. */
  lemma {:induction false} GatherPrefix<T>(sorted: seq<T>, boxsize: nat, n: nat)
    requires boxsize > 0
    ensures Gather(sorted, Boxes(n, boxsize)) == sorted[..Min(n * boxsize, |sorted|)]
  {
    if n > 0 {
      var plan := Boxes(n, boxsize);
      assert Gather(sorted, plan) == Gather(sorted, Boxes(n - 1, boxsize)) + Fetch(sorted, Box(n - 1, boxsize)) by {
        BoxesPrefix(n, boxsize);
      }
      GatherPrefix(sorted, boxsize, n - 1);
      FetchExtendsPrefix(sorted, boxsize, n - 1);
      assert (n - 1) * boxsize + boxsize == n * boxsize;
    }
  }

  /** The whole plan fetches the whole collection exactly once, in pk order. */
  lemma PlanCovers<T>(sorted: seq<T>, boxsize: nat)
    requires boxsize > 0
    ensures Gather(sorted, Plan(|sorted|, boxsize)) == sorted
  {
    var count := |sorted|;
    if count >= 1 {
      var boxes := count / boxsize;
      GatherPrefix(sorted, boxsize, boxes + 1);
      PlanReachesEnd(count, boxsize);
      assert Min((boxes + 1) * boxsize, count) == count;
    }
  }

  /** The `+ 1` box reaches past the last record. */
  lemma PlanReachesEnd(count: nat, boxsize: nat)
    requires boxsize > 0
    ensures count < (count / boxsize + 1) * boxsize
  {
  }

  /** Every box but the last is full; the last box holds `count % boxsize` records,
      so it is empty exactly when `boxsize` divides `count`. */
  lemma BoxSizes<T>(sorted: seq<T>, boxsize: nat)
    requires boxsize > 0
    requires |sorted| >= 1
    ensures var plan := Plan(|sorted|, boxsize);
      && (forall i :: 0 <= i < |plan| - 1 ==> |Fetch(sorted, plan[i])| == boxsize)
      && |Fetch(sorted, plan[|plan| - 1])| == |sorted| % boxsize
      && (Fetch(sorted, plan[|plan| - 1]) == [] <==> |sorted| % boxsize == 0)
  {
    var count := |sorted|;
    var plan := Plan(count, boxsize);
    var boxes := count / boxsize;
    assert count == boxes * boxsize + count % boxsize;
    forall i | 0 <= i < |plan| - 1
      ensures |Fetch(sorted, plan[i])| == boxsize
    {
      MulMonotonic(i + 1, boxes, boxsize);
      assert (i + 1) * boxsize == i * boxsize + boxsize;
    }
  }

  /** `a <= b` scales by a non-negative factor. */
  lemma MulMonotonic(a: int, b: int, c: nat)
    requires a <= b
    ensures a * c <= b * c
  {
  }

  /** Offset `pos` of the collection lies in box number `i` exactly when `i == pos / boxsize`. */
  lemma {:induction false} BoxOfOffset(boxsize: nat, pos: nat, i: nat)
    requires boxsize > 0
    ensures i * boxsize <= pos < i * boxsize + boxsize <==> i == pos / boxsize
  {
    var q := pos / boxsize;
    assert pos == q * boxsize + pos % boxsize;
    if i < q {
      MulMonotonic(i + 1, q, boxsize);
      assert (i + 1) * boxsize == i * boxsize + boxsize;
    } else if i > q {
      MulMonotonic(q + 1, i, boxsize);
      assert (q + 1) * boxsize == q * boxsize + boxsize;
    }
  }

  /** Each record of a non-empty collection is fetched by exactly one box of the plan. */
  lemma EachRecordInOneBox(count: nat, boxsize: nat, pos: nat)
    requires boxsize > 0
    requires pos < count
    ensures var plan := Plan(count, boxsize);
      && pos / boxsize < |plan|
      && forall i :: 0 <= i < |plan| ==>
           (Offset(plan[i]) <= pos < Offset(plan[i]) + boxsize <==> i == pos / boxsize)
  {
    var plan := Plan(count, boxsize);
    MulMonotonic(pos, count, 1);
    DivMonotonic(pos, count, boxsize);
    forall i | 0 <= i < |plan|
      ensures Offset(plan[i]) <= pos < Offset(plan[i]) + boxsize <==> i == pos / boxsize
    {
      BoxOfOffset(boxsize, pos, i);
    }
  }

  /** Division by a positive number is monotonic. */
  lemma DivMonotonic(a: nat, b: nat, c: nat)
    requires c > 0
    requires a <= b
    ensures a / c <= b / c
  {
    var qa, qb := a / c, b / c;
    assert a == qa * c + a % c;
    assert b == qb * c + b % c;
    if qa > qb {
      MulMonotonic(qb + 1, qa, c);
      assert false;
    }
  }

  /** Python's `a // b`: the floor of `a / b`, for either sign of `b`. */
  function FloorDiv(a: int, b: int): (q: int)
    requires b != 0
    ensures b > 0 ==> q * b <= a < q * b + b
    ensures b < 0 ==> q * b + b < a <= q * b
  {
    if b > 0 then a / b else (-a) / (-b)
  }

  /** How many boxes `reindextask` walks as written, for any integer box size:
      `len(range(count // boxsize + 1))` once the collection is non-empty. */
  function BoxesAsWritten(count: int, boxsize: int): (n: nat)
    requires boxsize != 0
    ensures boxsize > 0 && count >= 1 ==> n == |Plan(count, boxsize)|
    ensures count < 1 ==> n == 0
  {
    if count < 1 then 0
    else var last := FloorDiv(count, boxsize);
      if last + 1 <= 0 then 0 else last + 1
  }

  /** As written, a negative box size walks no box at all: the pass returns normally
      although not a single record reached the index. */
  lemma NegativeBoxsizeWalksNoBox(count: int, boxsize: int)
    requires count >= 1
    requires boxsize < 0
    ensures BoxesAsWritten(count, boxsize) == 0
  {
  }

  /** The concrete instance: 12000 records with `--boxsize -5000` fetch nothing. */
  lemma NegativeBoxsizeExample()
    ensures BoxesAsWritten(12000, -5000) == 0
    ensures |Plan(12000, 5000)| == 3
  {
  }
}

=== FILE: documents.dfy ===
/** Records of the document store and the documents sent to the search index. */
module Documents {

  /** Primary-key values. */
  type Key = int

  /** Field name to value; the shape is owned by the document store. */
  type Fields = map<string, string>

  /** One row of a model's collection, addressed by its primary key. */
  datatype Record = Record(pk: Key, fields: Fields)

  /** One index document; `id` is its identity in the index. */
  datatype Doc = Doc(id: Key, body: Fields)

  /** The projection `to_dicts` applies to one record: one record, one document,
      identified by the record's primary key. The field mapping itself is not modelled. */
  function ToDoc(r: Record): (d: Doc)
    ensures d.id == r.pk
  {
    Doc(r.pk, r.fields)
  }

  /** `to_dicts` over a page of records, in page order. */
  function ToDicts(rows: seq<Record>): (docs: seq<Doc>)
    ensures |docs| == |rows|
  {
    seq(|rows|, i requires 0 <= i < |rows| => ToDoc(rows[i]))
  }

  /** `to_dicts` maps every record to its document in place, and commutes with concatenation. */
  lemma ToDictsAppend(a: seq<Record>, b: seq<Record>)
    ensures ToDicts(a + b) == ToDicts(a) + ToDicts(b)
    ensures forall i :: 0 <= i < |a| ==> ToDicts(a)[i] == ToDoc(a[i])
  {
  }

  /** The order `_sort=pk` returns: primary keys strictly increasing (they are unique). */
  predicate PkOrdered(rows: seq<Record>)
  {
    forall i, j :: 0 <= i < j < |rows| ==> rows[i].pk < rows[j].pk
  }

  /** The primary keys of a sequence of records. */
  function Pks(rows: seq<Record>): set<Key>
  {
    set r | r in rows :: r.pk
  }
}

=== FILE: manage_index.dfy ===
/** `main` of the index manager, from the parsed command line on: which models are
    processed, the up-front check of their names, and the order of the per-model calls. */
module ManageIndex {
  import opened Outcomes
  import opened Documents
  import opened SearchIndex
  import opened ModelRegistry
  import opened Reindex

  /** The parsed command line, as far as the run uses it: `--models`, `--list-models`,
      `--recreate`, `--delete_mapping` and `--boxsize`. */
  datatype Args = Args(models: seq<ModelName>, list: bool, recreate: bool, deleteMapping: bool, boxsize: int)

  /** The calls `main` makes, in order. */
  datatype Action =
    | RecreateIndexStep
    | ListStep(names: seq<ModelName>)
    | RecreateMappingStep(model: ModelName)
    | ReindexStep(model: ModelName)

  /** The models the run goes on with: every available model after `--recreate` without
      `--list` (the `--models` given are then ignored), otherwise the `--models` given. */
  function SelectedModels(args: Args, reg: Registry): seq<ModelName>
    requires reg.Valid()
  {
    if args.recreate && !args.list then AvailableModels(reg) else args.models
  }

  /** The first requested name that is not available, if any: the name the `ValueError`
      of the up-front check reports. */
  function FirstUnknown(requested: seq<ModelName>, avail: seq<ModelName>): (r: Option<ModelName>)
    ensures r == None <==> forall i :: 0 <= i < |requested| ==> requested[i] in avail
    ensures r.Some? ==> r.value in requested && r.value !in avail
  {
    if |requested| == 0 then None
    else if requested[0] !in avail then Some(requested[0])
    else FirstUnknown(requested[1..], avail)
  }

  /** The reported name is the first unavailable one in request order. */
  lemma {:induction false} FirstUnknownIsFirst(requested: seq<ModelName>, avail: seq<ModelName>)
    requires FirstUnknown(requested, avail).Some?
    ensures exists i :: 0 <= i < |requested| && requested[i] == FirstUnknown(requested, avail).value
                        && forall j :: 0 <= j < i ==> requested[j] in avail
  {
    if requested[0] in avail {
      var rest := requested[1..];
      FirstUnknownIsFirst(rest, avail);
      var i :| 0 <= i < |rest| && rest[i] == FirstUnknown(rest, avail).value
               && forall j :: 0 <= j < i ==> rest[j] in avail;
      assert requested[i + 1] == rest[i];
      forall j | 0 <= j < i + 1 ensures requested[j] in avail {
        if j > 0 {
          assert requested[j] == rest[j - 1];
        }
      }
    } else {
      assert requested[0] == FirstUnknown(requested, avail).value;
    }
  }

  /** The calls the run opens with: `recreate_index()` under `--recreate` without `--list`. */
  function Opening(args: Args): seq<Action>
  {
    if args.recreate && !args.list then [RecreateIndexStep] else []
  }

  /** The calls for one model: `recreate_mapping` first under `--delete_mapping`, then `reindextask`. */
  function StepsFor(model: ModelName, deleteMapping: bool): seq<Action>
  {
    (if deleteMapping then [RecreateMappingStep(model)] else []) + [ReindexStep(model)]
  }

  /** The per-model calls for `models`, in list order. */
  function ModelSteps(models: seq<ModelName>, deleteMapping: bool): seq<Action>
  {
    if |models| == 0 then []
    else ModelSteps(models[..|models| - 1], deleteMapping) + StepsFor(models[|models| - 1], deleteMapping)
  }

  /** Processing one more model appends that model's calls. */
  lemma ModelStepsExtend(models: seq<ModelName>, n: nat, deleteMapping: bool)
    requires n < |models|
    ensures ModelSteps(models[..n + 1], deleteMapping) == ModelSteps(models[..n], deleteMapping) + StepsFor(models[n], deleteMapping)
  {
    assert models[..n + 1][..n] == models[..n];
  }

  /** The calls for the first `n` models come first among the calls for all of them. */
  lemma {:induction false} ModelStepsPrefix(models: seq<ModelName>, n: nat, deleteMapping: bool)
    requires n <= |models|
    ensures ModelSteps(models[..n], deleteMapping) <= ModelSteps(models, deleteMapping)
  {
    if n == |models| {
      assert models[..n] == models;
    } else {
      var init := models[..|models| - 1];
      assert init[..n] == models[..n];
      ModelStepsPrefix(init, n, deleteMapping);
    }
  }

  /** Reindexing a model whose documents are absent, or are already exactly its collection,
      leaves exactly its collection. */
  lemma ReindexIsExact(prev: map<Key, Doc>, rows: seq<Record>)
    requires prev == map[] || prev == Latest(ToDicts(rows))
    ensures Upsert(prev, ToDicts(rows)) == Latest(ToDicts(rows))
  {
  }

  /** Before the first model no per-model call is made. */
  lemma NoStepsYet(models: seq<ModelName>, deleteMapping: bool)
    ensures ModelSteps(models[..0], deleteMapping) == []
  {
  }

  /** A prefix stays a prefix behind a common head. */
  lemma PrefixAfterHead<T>(head: seq<T>, a: seq<T>, b: seq<T>)
    requires a <= b
    ensures head + a <= head + b
  {
  }

  /** What one model's turn in `main` does to the index when it completes: under
      `--delete_mapping` the model's mapping is recreated, then its whole collection is sent. */
  function Turn(s: IndexState, model: ModelName, cls: DocClass, deleteMapping: bool): IndexState
  {
    (if deleteMapping then s.RecreateMapping(model, cls.schema) else s).Index(model, ToDicts(cls.rows))
  }

  /** What completed turns for `models`, in list order, do to the index. */
  function Turns(s: IndexState, models: seq<ModelName>, reg: Registry, deleteMapping: bool): IndexState
    requires forall j :: 0 <= j < |models| ==> models[j] in reg.classes
  {
    if |models| == 0 then s
    else
      var last := models[|models| - 1];
      Turn(Turns(s, models[..|models| - 1], reg, deleteMapping), last, reg.classes[last], deleteMapping)
  }

  /** Each of `models` is registered, with its collection in primary-key order. */
  predicate Processable(models: seq<ModelName>, reg: Registry)
  {
    forall j :: 0 <= j < |models| ==> models[j] in reg.classes && PkOrdered(reg.classes[models[j]].rows)
  }

  /** A turn leaves every record of its model indexed, touches no other model's documents,
      and leaves exactly the model's collection when the model held nothing, held exactly
      that already, or had its mapping recreated. */
  lemma TurnEffect(s: IndexState, model: ModelName, cls: DocClass, deleteMapping: bool)
    requires PkOrdered(cls.rows)
    ensures AllIndexed(Turn(s, model, cls, deleteMapping).DocsOf(model), cls.rows)
    ensures forall m :: m != model ==> Turn(s, model, cls, deleteMapping).DocsOf(m) == s.DocsOf(m)
    ensures (deleteMapping || s.DocsOf(model) == map[] || s.DocsOf(model) == Latest(ToDicts(cls.rows)))
            ==> Turn(s, model, cls, deleteMapping).DocsOf(model) == Latest(ToDicts(cls.rows))
  {
    var reset := if deleteMapping then s.RecreateMapping(model, cls.schema) else s;
    CompletedPassIndexesAll(reset, model, cls.rows);
    if deleteMapping || s.DocsOf(model) == map[] || s.DocsOf(model) == Latest(ToDicts(cls.rows)) {
      if |cls.rows| >= 1 {
        ReindexIsExact(reset.DocsOf(model), cls.rows);
      } else {
        assert ToDicts(cls.rows) == [];
      }
    }
  }

  /** A prefix of processable models is processable. */
  lemma ProcessablePrefix(models: seq<ModelName>, reg: Registry, n: nat)
    requires n <= |models|
    requires Processable(models, reg)
    ensures Processable(models[..n], reg)
  {
    forall j | 0 <= j < n ensures models[..n][j] in reg.classes && PkOrdered(reg.classes[models[..n][j]].rows) {
      assert models[..n][j] == models[j];
    }
  }

  /** After a turn, the turned model's records are indexed, and another model's records
      stay indexed. */
  lemma TurnKeepsIndexed(s: IndexState, model: ModelName, cls: DocClass, deleteMapping: bool,
                         other: ModelName, rows: seq<Record>)
    requires PkOrdered(cls.rows)
    requires other == model ==> rows == cls.rows
    requires other != model ==> AllIndexed(s.DocsOf(other), rows)
    ensures AllIndexed(Turn(s, model, cls, deleteMapping).DocsOf(other), rows)
  {
    TurnEffect(s, model, cls, deleteMapping);
  }

  /** After completed turns for `models`, every record of every one of them is indexed. */
  lemma {:induction false} TurnsIndexAll(s: IndexState, models: seq<ModelName>, reg: Registry, deleteMapping: bool)
    requires Processable(models, reg)
    ensures forall j :: 0 <= j < |models| ==>
      AllIndexed(Turns(s, models, reg, deleteMapping).DocsOf(models[j]), reg.classes[models[j]].rows)
  {
    if |models| > 0 {
      var n := |models| - 1;
      var init, last := models[..n], models[n];
      ProcessablePrefix(models, reg, n);
      var before := Turns(s, init, reg, deleteMapping);
      var after := Turns(s, models, reg, deleteMapping);
      assert after == Turn(before, last, reg.classes[last], deleteMapping);
      TurnsIndexAll(s, init, reg, deleteMapping);
      forall j | 0 <= j < |models|
        ensures AllIndexed(after.DocsOf(models[j]), reg.classes[models[j]].rows)
      {
        if j < n {
          assert models[j] == init[j];
        }
        TurnKeepsIndexed(before, last, reg.classes[last], deleteMapping, models[j], reg.classes[models[j]].rows);
      }
    }
  }

  /** Completed turns on an index without documents leave exactly the collections of the
      models turned, and nothing for the others. */
  lemma {:induction false} TurnsOnEmptyAreExact(s: IndexState, models: seq<ModelName>, reg: Registry, deleteMapping: bool)
    requires Processable(models, reg)
    requires forall m :: s.DocsOf(m) == map[]
    ensures forall m :: m in reg.classes ==>
      Turns(s, models, reg, deleteMapping).DocsOf(m) == if m in models then Latest(ToDicts(reg.classes[m].rows)) else map[]
    ensures forall m :: m !in models ==> Turns(s, models, reg, deleteMapping).DocsOf(m) == map[]
  {
    if |models| > 0 {
      var n := |models| - 1;
      var init, last := models[..n], models[n];
      var before := Turns(s, init, reg, deleteMapping);
      var after := Turns(s, models, reg, deleteMapping);
      assert after == Turn(before, last, reg.classes[last], deleteMapping);
      TurnsOnEmptyAreExact(s, init, reg, deleteMapping);
      assert models == init + [last];
      forall m | m in reg.classes
        ensures after.DocsOf(m) == if m in models then Latest(ToDicts(reg.classes[m].rows)) else map[]
      {
        TurnEffect(before, last, reg.classes[last], deleteMapping);
        if m != last {
          assert m in models <==> m in init;
          assert after.DocsOf(m) == before.DocsOf(m);
        }
      }
      forall m | m !in models
        ensures after.DocsOf(m) == map[]
      {
        TurnEffect(before, last, reg.classes[last], deleteMapping);
        assert m !in init;
      }
    }
  }

  /** One model's turn in `main` (lines 152-155): under `--delete_mapping` its mapping is
      recreated, then the model is reindexed. Only that model's documents, and under
      `--delete_mapping` its mapping, change. */
  method ProcessModel(index: IndexState, model: ModelName, cls: DocClass, deleteMapping: bool,
                      boxsize: int, outage: Option<nat>)
    returns (index': IndexState, failure: Option<Error>)
    requires PkOrdered(cls.rows)
    ensures failure == None ==> index' == Turn(index, model, cls, deleteMapping)
    ensures failure == None ==> AllIndexed(index'.DocsOf(model), cls.rows)
    ensures index'.mappings == if deleteMapping then index.mappings[model := cls.schema] else index.mappings
    ensures forall m :: m != model ==> index'.DocsOf(m) == index.DocsOf(m)
    // a failing turn keeps the boxes its pass sent before the store failed
    ensures failure.Some? ==>
      index'.DocsOf(model)
        == (if deleteMapping then map[] else index.DocsOf(model)) + Latest(SentBeforeFailure(cls.rows, boxsize, outage))
    ensures boxsize > 0 && outage == None ==> failure == None
    ensures boxsize > 0 && failure.Some? ==> outage.Some? && failure == Some(StoreUnavailable(outage.value))
    ensures failure.Some? ==> !failure.value.UnknownModel?
  {
    var reset := index;
    if deleteMapping {
      reset := index.RecreateMapping(model, cls.schema);
      assert reset.mappings == index.mappings[model := cls.schema];
    }
    var batches;
    index', batches, failure := ReindexTask(reset, model, cls.rows, boxsize, outage);
    if failure == None && |cls.rows| < 1 {
      assert ToDicts(cls.rows) == [];
    }
    if failure.Some? {
      IndexIsUnion(reset, model, SentBeforeFailure(cls.rows, boxsize, outage));
    }
  }

  /** One more completed turn extends the turns made so far. */
  lemma TurnsStep(s: IndexState, models: seq<ModelName>, n: nat, reg: Registry, deleteMapping: bool)
    requires n < |models|
    requires forall j :: 0 <= j < |models| ==> models[j] in reg.classes
    ensures Turns(s, models[..n + 1], reg, deleteMapping)
         == Turn(Turns(s, models[..n], reg, deleteMapping), models[n], reg.classes[models[n]], deleteMapping)
  {
    assert models[..n + 1][..n] == models[..n];
  }

  /** The index already holds the current mapping of each of `models`. */
  predicate MappingsInPlace(s: IndexState, models: seq<ModelName>, reg: Registry)
    requires forall j :: 0 <= j < |models| ==> models[j] in reg.classes
  {
    forall j :: 0 <= j < |models| ==> models[j] in s.mappings && s.mappings[models[j]] == reg.classes[models[j]].schema
  }

  /** Turns leave the mappings as they are when the index already holds the current
      mapping of each model turned. */
  lemma {:induction false} TurnsKeepMappings(s: IndexState, models: seq<ModelName>, reg: Registry, deleteMapping: bool)
    requires forall j :: 0 <= j < |models| ==> models[j] in reg.classes
    requires MappingsInPlace(s, models, reg)
    ensures Turns(s, models, reg, deleteMapping).mappings == s.mappings
  {
    if |models| > 0 {
      var n := |models| - 1;
      var init, last := models[..n], models[n];
      assert MappingsInPlace(s, init, reg) by {
        forall j | 0 <= j < |init| ensures init[j] in s.mappings && s.mappings[init[j]] == reg.classes[init[j]].schema {
          assert init[j] == models[j];
        }
      }
      TurnsKeepMappings(s, init, reg, deleteMapping);
      assert s.mappings[last := reg.classes[last].schema] == s.mappings;
    }
  }

  /** `after` holds the same documents and the same mapping for `model` as `before`. */
  ghost predicate Untouched(before: IndexState, after: IndexState, model: ModelName)
  {
    && after.DocsOf(model) == before.DocsOf(model)
    && (model in after.mappings <==> model in before.mappings)
    && (model in before.mappings ==> after.mappings[model] == before.mappings[model])
  }

  /** A turn touches no other model. */
  lemma TurnUntouched(s: IndexState, model: ModelName, cls: DocClass, deleteMapping: bool, other: ModelName)
    requires other != model
    ensures Untouched(s, Turn(s, model, cls, deleteMapping), other)
    ensures !deleteMapping ==> Turn(s, model, cls, deleteMapping).mappings == s.mappings
  {
  }

  /** Turns touch only the models turned, and without `--delete_mapping` no mapping. */
  lemma {:induction false} TurnsFrame(s: IndexState, models: seq<ModelName>, reg: Registry, deleteMapping: bool)
    requires forall j :: 0 <= j < |models| ==> models[j] in reg.classes
    ensures forall m :: m !in models ==> Untouched(s, Turns(s, models, reg, deleteMapping), m)
    ensures !deleteMapping ==> Turns(s, models, reg, deleteMapping).mappings == s.mappings
  {
    if |models| > 0 {
      var n := |models| - 1;
      var init, last := models[..n], models[n];
      TurnsFrame(s, init, reg, deleteMapping);
      var before := Turns(s, init, reg, deleteMapping);
      var after := Turns(s, models, reg, deleteMapping);
      assert after == Turn(before, last, reg.classes[last], deleteMapping);
      forall m | m !in models
        ensures Untouched(s, after, m)
      {
        assert m !in init;
        TurnUntouched(before, last, reg.classes[last], deleteMapping, m);
      }
    }
  }

  /** A run stopped at `models[k]` touched only the models up to `models[k]`, and no
      mapping without `--delete_mapping` or when each model's mapping was already in place. */
  lemma StoppedFrame(start: IndexState, models: seq<ModelName>, reg: Registry, deleteMapping: bool,
                     boxsize: int, outages: map<ModelName, nat>, k: nat, steps: seq<Action>, end: IndexState)
    requires Processable(models, reg)
    requires k < |models|
    requires StoppedAt(start, models, reg, deleteMapping, boxsize, outages, k, steps, end)
    ensures forall m :: m !in models ==> Untouched(start, end, m)
    ensures !deleteMapping ==> end.mappings == start.mappings
    ensures MappingsInPlace(start, models, reg) ==> end.mappings == start.mappings
  {
    var init := models[..k];
    var before := Turns(start, init, reg, deleteMapping);
    TurnsFrame(start, init, reg, deleteMapping);
    forall m | m !in models
      ensures Untouched(start, end, m)
    {
      assert m !in init && m != models[k];
    }
    if MappingsInPlace(start, models, reg) {
      assert MappingsInPlace(start, init, reg) by {
        forall j | 0 <= j < |init| ensures init[j] in start.mappings && start.mappings[init[j]] == reg.classes[init[j]].schema {
          assert init[j] == models[j];
        }
      }
      TurnsKeepMappings(start, init, reg, deleteMapping);
      assert before.mappings[models[k] := reg.classes[models[k]].schema] == before.mappings;
    }
  }

  /** Available models are registered, and their collections come in primary-key order. */
  lemma AvailableAreProcessable(reg: Registry, models: seq<ModelName>)
    requires reg.Valid()
    requires forall i :: 0 <= i < |models| ==> models[i] in AvailableModels(reg)
    ensures Processable(models, reg)
  {
  }

  /** What completed turns over validated models leave behind: every record of every model
      indexed, and after `--recreate` exactly the available models' mappings and collections. */
  lemma CompletedTurns(start: IndexState, models: seq<ModelName>, reg: Registry, deleteMapping: bool, recreate: bool)
    requires reg.Valid()
    requires forall j :: 0 <= j < |models| ==> models[j] in reg.classes
    requires recreate ==> start == RecreateIndex(EnabledSchemas(reg)) && models == AvailableModels(reg)
    ensures forall m :: m in models ==>
      m in reg.classes && AllIndexed(Turns(start, models, reg, deleteMapping).DocsOf(m), reg.classes[m].rows)
    ensures recreate ==> Turns(start, models, reg, deleteMapping).mappings == EnabledSchemas(reg)
    ensures recreate ==> forall m :: m in reg.classes ==>
      Turns(start, models, reg, deleteMapping).DocsOf(m)
        == if reg.classes[m].Enabled() then Latest(ToDicts(reg.classes[m].rows)) else map[]
    ensures recreate ==> forall m :: m !in reg.classes ==> Turns(start, models, reg, deleteMapping).DocsOf(m) == map[]
  {
    TurnsIndexAll(start, models, reg, deleteMapping);
    forall m | m in models
      ensures m in reg.classes && AllIndexed(Turns(start, models, reg, deleteMapping).DocsOf(m), reg.classes[m].rows)
    {
      var j :| 0 <= j < |models| && models[j] == m;
    }
    if recreate {
      TurnsOnEmptyAreExact(start, models, reg, deleteMapping);
      TurnsKeepMappings(start, models, reg, deleteMapping);
    }
  }

  /** One pass of the per-model loop: the turn of `models[i]`, after the turns of the
      models before it completed. */
  method ProcessNext(start: IndexState, models: seq<ModelName>, i: nat, reg: Registry, deleteMapping: bool,
                     boxsize: int, outages: map<ModelName, nat>, index: IndexState, steps: seq<Action>)
    returns (index': IndexState, steps': seq<Action>, failure: Option<Error>)
    requires Processable(models, reg)
    requires i < |models|
    requires steps == ModelSteps(models[..i], deleteMapping)
    requires index == Turns(start, models[..i], reg, deleteMapping)
    ensures steps' == ModelSteps(models[..i + 1], deleteMapping)
    ensures failure == None ==> index' == Turns(start, models[..i + 1], reg, deleteMapping)
    ensures forall m :: m != models[i] ==> index'.DocsOf(m) == index.DocsOf(m)
    ensures failure.Some? ==> StoppedAt(start, models, reg, deleteMapping, boxsize, outages, i, steps', index')
    ensures failure.Some? ==> !failure.value.UnknownModel?
    ensures boxsize > 0 && outages == map[] ==> failure == None
  {
    var model := models[i];
    var cls := reg.classes[model];
    index', failure := ProcessModel(index, model, cls, deleteMapping, boxsize, OutageOf(outages, model));
    ModelStepsExtend(models, i, deleteMapping);
    steps' := steps + StepsFor(model, deleteMapping);
    if failure == None {
      TurnsStep(start, models, i, reg, deleteMapping);
    }
  }

  /** The calls for `models[..k + 1]`, the models up to and including `models[k]`. */
  function StepsThrough(models: seq<ModelName>, k: nat, deleteMapping: bool): seq<Action>
    requires k < |models|
  {
    ModelSteps(models[..k + 1], deleteMapping)
  }

  /** The box at which the store fails during `model`'s pass, if it does. */
  function OutageOf(outages: map<ModelName, nat>, model: ModelName): Option<nat>
  {
    if model in outages then Some(outages[model]) else None
  }

  /** The per-model loop stopped at `models[k]`: the calls made end with that model's calls,
      so no later model was processed; every other model holds what the turns before it
      left; and `models[k]` had its mapping recreated (under `--delete_mapping`) and keeps
      the boxes its pass sent before the store failed. */
  ghost predicate StoppedAt(start: IndexState, models: seq<ModelName>, reg: Registry, deleteMapping: bool,
                            boxsize: int, outages: map<ModelName, nat>,
                            k: nat, steps: seq<Action>, end: IndexState)
    requires Processable(models, reg)
    requires k < |models|
  {
    var before, model := Turns(start, models[..k], reg, deleteMapping), models[k];
    && steps == StepsThrough(models, k, deleteMapping)
    && end.mappings == (if deleteMapping then before.mappings[model := reg.classes[model].schema] else before.mappings)
    && (forall m :: m != model ==> end.DocsOf(m) == before.DocsOf(m))
    && end.DocsOf(model)
       == (if deleteMapping then map[] else before.DocsOf(model))
          + Latest(SentBeforeFailure(reg.classes[model].rows, boxsize, OutageOf(outages, model)))
  }

  /** The per-model loop of `main` over validated models, in list order; the first failing
      model ends the loop. Returns the index afterwards, the calls made, and the failure. */
  method ProcessModels(index: IndexState, models: seq<ModelName>, reg: Registry, deleteMapping: bool,
                       boxsize: int, outages: map<ModelName, nat>)
    returns (index': IndexState, steps: seq<Action>, failure: Option<Error>)
    requires Processable(models, reg)
    ensures steps <= ModelSteps(models, deleteMapping)
    ensures failure == None ==> steps == ModelSteps(models, deleteMapping)
    ensures failure == None ==> index' == Turns(index, models, reg, deleteMapping)
    ensures failure.Some? ==>
      exists k :: 0 <= k < |models| && StoppedAt(index, models, reg, deleteMapping, boxsize, outages, k, steps, index')
    // models not in the list keep their documents and mapping, and mappings change only
    // under `--delete_mapping` and only when they were not already in place
    ensures forall m :: m !in models ==> Untouched(index, index', m)
    ensures !deleteMapping ==> index'.mappings == index.mappings
    ensures MappingsInPlace(index, models, reg) ==> index'.mappings == index.mappings
    ensures failure.Some? ==> !failure.value.UnknownModel?
    ensures boxsize > 0 && outages == map[] ==> failure == None
  {
    index', steps, failure := index, [], None;
    NoStepsYet(models, deleteMapping);
    var i := 0;
    while i < |models|
      invariant 0 <= i <= |models|
      invariant steps == ModelSteps(models[..i], deleteMapping)
      invariant failure == None
      invariant index' == Turns(index, models[..i], reg, deleteMapping)
    {
      index', steps, failure := ProcessNext(index, models, i, reg, deleteMapping, boxsize, outages, index', steps);
      if failure.Some? {
        ModelStepsPrefix(models, i + 1, deleteMapping);
        assert StoppedAt(index, models, reg, deleteMapping, boxsize, outages, i, steps, index');
        StoppedFrame(index, models, reg, deleteMapping, boxsize, outages, i, steps, index');
        return;
      }
      i := i + 1;
    }
    assert models[..i] == models;
    ModelStepsPrefix(models, i, deleteMapping);
    TurnsFrame(index, models, reg, deleteMapping);
    if MappingsInPlace(index, models, reg) {
      TurnsKeepMappings(index, models, reg, deleteMapping);
    }
  }

  /** `recreate_index()` leaves no document, and the mapping of every available model in place. */
  lemma RecreatedIndex(reg: Registry)
    requires reg.Valid()
    ensures forall m :: RecreateIndex(EnabledSchemas(reg)).DocsOf(m) == map[]
    ensures MappingsInPlace(RecreateIndex(EnabledSchemas(reg)), AvailableModels(reg), reg)
  {
  }

  /** `main` past the up-front check: `recreate_index()` under `--recreate`, then the turns
      of the selected models, in list order, until one fails. */
  method RunModels(args: Args, reg: Registry, index: IndexState, outages: map<ModelName, nat>)
    returns (index': IndexState, trace: seq<Action>, failure: Option<Error>)
    requires reg.Valid()
    requires !args.list
    requires FirstUnknown(SelectedModels(args, reg), AvailableModels(reg)).None?
    ensures args.recreate ==> |trace| > 0 && trace[0] == RecreateIndexStep
    ensures args.recreate ==> index'.mappings == EnabledSchemas(reg)
    // without `--recreate`, models not selected keep their documents and mapping
    ensures !args.recreate ==> forall m :: m !in SelectedModels(args, reg) ==> Untouched(index, index', m)
    ensures !args.recreate && !args.deleteMapping ==> index'.mappings == index.mappings
    ensures failure.Some? ==> !failure.value.UnknownModel?
    ensures trace <= Opening(args) + ModelSteps(SelectedModels(args, reg), args.deleteMapping)
    ensures failure == None ==> trace == Opening(args) + ModelSteps(SelectedModels(args, reg), args.deleteMapping)
    ensures failure.Some? ==>
      (exists k :: 0 <= k < |SelectedModels(args, reg)| &&
        trace == Opening(args) + StepsThrough(SelectedModels(args, reg), k, args.deleteMapping))
    ensures failure == None ==>
      forall m :: m in SelectedModels(args, reg) ==>
        m in reg.classes && AllIndexed(index'.DocsOf(m), reg.classes[m].rows)
    ensures args.recreate && failure == None ==>
      forall m :: m in reg.classes ==>
        index'.DocsOf(m) == if reg.classes[m].Enabled() then Latest(ToDicts(reg.classes[m].rows)) else map[]
    ensures args.recreate && failure == None ==> forall m :: m !in reg.classes ==> index'.DocsOf(m) == map[]
    ensures args.boxsize > 0 && outages == map[] ==> failure == None
  {
    var start := if args.recreate then RecreateIndex(EnabledSchemas(reg)) else index;
    var models := SelectedModels(args, reg);
    AvailableAreProcessable(reg, models);
    if args.recreate {
      RecreatedIndex(reg);
    }
    var steps;
    index', steps, failure := ProcessModels(start, models, reg, args.deleteMapping, args.boxsize, outages);
    PrefixAfterHead(Opening(args), steps, ModelSteps(models, args.deleteMapping));
    trace := Opening(args) + steps;
    if failure.Some? {
      ghost var k :| 0 <= k < |models| && StoppedAt(start, models, reg, args.deleteMapping, args.boxsize, outages, k, steps, index');
      assert trace == Opening(args) + StepsThrough(models, k, args.deleteMapping);
    }
    if failure == None {
      CompletedTurns(start, models, reg, args.deleteMapping, args.recreate);
    }
  }

  /** `main` after the command line is parsed and the index client is set up. `outages`
      gives, per model, the box at which the store fails during that model's pass. Returns
      the index afterwards, the calls made, and the error that ended the run, if any. */
  method Run(args: Args, reg: Registry, index: IndexState, outages: map<ModelName, nat>)
    returns (index': IndexState, trace: seq<Action>, failure: Option<Error>)
    requires reg.Valid()
    // `--list-models` only lists the available models: no recreate, no reindex
    ensures args.list ==> index' == index && trace == [ListStep(AvailableModels(reg))] && failure == None
    // `--recreate` opens with a fresh index holding the mapping of every available model
    ensures !args.list && args.recreate ==> |trace| > 0 && trace[0] == RecreateIndexStep
    ensures !args.list && args.recreate ==> index'.mappings == EnabledSchemas(reg)
    // without `--recreate`, models not selected keep their documents and mapping
    ensures !args.recreate ==> forall m :: m !in SelectedModels(args, reg) ==> Untouched(index, index', m)
    ensures !args.recreate && !args.deleteMapping ==> index'.mappings == index.mappings
    // an unknown model name stops the run before any per-model call
    ensures var unknown := FirstUnknown(SelectedModels(args, reg), AvailableModels(reg));
      !args.list && unknown.Some? ==>
        index' == index && trace == [] && failure == Some(UnknownModel(unknown.value))
    ensures failure.Some? && failure.value.UnknownModel? ==> index' == index && trace == []
    // otherwise the models are processed in list order; a failing pass ends the run
    ensures !args.list && FirstUnknown(SelectedModels(args, reg), AvailableModels(reg)).None? ==>
      trace <= Opening(args) + ModelSteps(SelectedModels(args, reg), args.deleteMapping)
    ensures !args.list && failure == None ==>
      trace == Opening(args) + ModelSteps(SelectedModels(args, reg), args.deleteMapping)
    ensures failure.Some? && !failure.value.UnknownModel? ==>
      (exists k :: 0 <= k < |SelectedModels(args, reg)| &&
        trace == Opening(args) + StepsThrough(SelectedModels(args, reg), k, args.deleteMapping))
    // a completed run leaves every record of every processed model in the index
    ensures !args.list && failure == None ==>
      forall m :: m in SelectedModels(args, reg) ==>
        m in reg.classes && AllIndexed(index'.DocsOf(m), reg.classes[m].rows)
    // a completed `--recreate` run leaves exactly the available models' collections
    ensures !args.list && args.recreate && failure == None ==>
      forall m :: m in reg.classes ==>
        index'.DocsOf(m) == if reg.classes[m].Enabled() then Latest(ToDicts(reg.classes[m].rows)) else map[]
    ensures !args.list && args.recreate && failure == None ==>
      forall m :: m !in reg.classes ==> index'.DocsOf(m) == map[]
    // with a positive box size and no store failure, a validated run completes
    ensures (&& !args.list && FirstUnknown(SelectedModels(args, reg), AvailableModels(reg)).None?
             && args.boxsize > 0 && outages == map[]) ==> failure == None
  {
    if args.list {
      index', trace, failure := index, [ListStep(AvailableModels(reg))], None;
      return;
    }
    // with no model named the check and the loop do nothing, as under `elif args.models`
    var unknown := FirstUnknown(SelectedModels(args, reg), AvailableModels(reg));
    if unknown.Some? {
      index', trace, failure := index, [], Some(UnknownModel(unknown.value));
      return;
    }
    index', trace, failure := RunModels(args, reg, index, outages);
  }
}

=== FILE: model_registry.dfy ===
/** The document classes the database engine knows, and which of them may be indexed. */
module ModelRegistry {
  import opened Documents
  import opened SearchIndex

  /** The `_index_enabled` attribute of a document class: absent, or set to a value. */
  datatype Flag = Unset | Set(value: bool)

  /** A registered document class: its index flag, its index mapping and its collection,
      the records in the order `_sort=pk` returns them. */
  datatype DocClass = DocClass(indexEnabled: Flag, schema: Schema, rows: seq<Record>)
  {
    /** `getattr(model, '_index_enabled', False)` is truthy; a missing attribute is false. */
    predicate Enabled()
    {
      indexEnabled == Set(true)
    }
  }

  /** `engine.get_document_classes()`: a dictionary from model name to document class;
      `names` is its iteration (insertion) order. */
  datatype Registry = Registry(names: seq<ModelName>, classes: map<ModelName, DocClass>)
  {
    /** A dictionary lists each of its keys once, and a collection sorted by a primary key
        has strictly increasing keys. */
    predicate Valid()
    {
      && (forall i :: 0 <= i < |names| ==> names[i] in classes)
      && (forall n :: n in classes ==> n in names)
      && (forall i, j :: 0 <= i < j < |names| ==> names[i] != names[j])
      && (forall n :: n in classes ==> PkOrdered(classes[n].rows))
    }
  }

  /** The names among `names` whose class is index-enabled, in order. */
  function EnabledNames(names: seq<ModelName>, classes: map<ModelName, DocClass>): (r: seq<ModelName>)
    requires forall i :: 0 <= i < |names| ==> names[i] in classes
    ensures forall n :: n in r <==> n in names && classes[n].Enabled()
    ensures (forall i, j :: 0 <= i < j < |names| ==> names[i] != names[j]) ==>
              forall i, j :: 0 <= i < j < |r| ==> r[i] != r[j]
  {
    if |names| == 0 then []
    else
      var rest := EnabledNames(names[1..], classes);
      if classes[names[0]].Enabled() then [names[0]] + rest else rest
  }

  /** `x` occurs in `names` before `y`. */
  predicate Before(names: seq<ModelName>, x: ModelName, y: ModelName)
  {
    exists p, q :: 0 <= p < q < |names| && names[p] == x && names[q] == y
  }

  /** An order seen in the tail holds in the whole sequence. */
  lemma BeforeInTail(names: seq<ModelName>, x: ModelName, y: ModelName)
    requires |names| > 0 && Before(names[1..], x, y)
    ensures Before(names, x, y)
  {
    var p, q :| 0 <= p < q < |names[1..]| && names[1..][p] == x && names[1..][q] == y;
    assert names[p + 1] == x && names[q + 1] == y;
  }

  /** The head comes before every name of the tail. */
  lemma HeadBefore(names: seq<ModelName>, y: ModelName)
    requires |names| > 0 && y in names[1..]
    ensures Before(names, names[0], y)
  {
    var q :| 0 <= q < |names[1..]| && names[1..][q] == y;
    assert names[q + 1] == y;
  }

  /** The filter keeps the registry order: of two names it keeps, the earlier one comes
      first in `names` too. */
  lemma {:induction false} EnabledNamesInOrder(names: seq<ModelName>, classes: map<ModelName, DocClass>)
    requires forall i :: 0 <= i < |names| ==> names[i] in classes
    ensures forall i, j :: 0 <= i < j < |EnabledNames(names, classes)| ==>
      Before(names, EnabledNames(names, classes)[i], EnabledNames(names, classes)[j])
  {
    if |names| > 0 {
      var rest := EnabledNames(names[1..], classes);
      EnabledNamesInOrder(names[1..], classes);
      if classes[names[0]].Enabled() {
        OrderedAfterHead(names, rest);
      } else {
        OrderedInTail(names, rest);
      }
    }
  }

  /** Names in order along the tail of `names` are in order along `names`. */
  lemma OrderedInTail(names: seq<ModelName>, r: seq<ModelName>)
    requires |names| > 0
    requires forall i, j :: 0 <= i < j < |r| ==> Before(names[1..], r[i], r[j])
    ensures forall i, j :: 0 <= i < j < |r| ==> Before(names, r[i], r[j])
  {
    forall i, j | 0 <= i < j < |r|
      ensures Before(names, r[i], r[j])
    {
      BeforeInTail(names, r[i], r[j]);
    }
  }

  /** Putting the head of `names` in front of names in order along its tail keeps them in order. */
  lemma OrderedAfterHead(names: seq<ModelName>, r: seq<ModelName>)
    requires |names| > 0
    requires forall i, j :: 0 <= i < j < |r| ==> Before(names[1..], r[i], r[j])
    requires forall n :: n in r ==> n in names[1..]
    ensures forall i, j :: 0 <= i < j < |[names[0]] + r| ==>
      Before(names, ([names[0]] + r)[i], ([names[0]] + r)[j])
  {
    var full := [names[0]] + r;
    forall i, j | 0 <= i < j < |full|
      ensures Before(names, full[i], full[j])
    {
      assert full[j] == r[j - 1];
      if i == 0 {
        assert r[j - 1] in r;
        HeadBefore(names, full[j]);
      } else {
        assert full[i] == r[i - 1];
        BeforeInTail(names, full[i], full[j]);
      }
    }
  }

  /** `available_models()`: exactly the registered models whose class is index-enabled,
      each once, in registry order. */
  function AvailableModels(reg: Registry): (avail: seq<ModelName>)
    requires reg.Valid()
    ensures forall n :: n in avail <==> n in reg.classes && reg.classes[n].Enabled()
    ensures forall i, j :: 0 <= i < j < |avail| ==> avail[i] != avail[j]
    ensures forall i, j :: 0 <= i < j < |avail| ==> Before(reg.names, avail[i], avail[j])
  {
    EnabledNamesInOrder(reg.names, reg.classes);
    EnabledNames(reg.names, reg.classes)
  }

  /** The mappings `setup_mappings` pushes: one per index-enabled model. */
  function EnabledSchemas(reg: Registry): map<ModelName, Schema>
  {
    map n | n in reg.classes && reg.classes[n].Enabled() :: reg.classes[n].schema
  }
}

=== FILE: outcomes.dfy ===
/** Failure-carrying values shared by the modules of the index manager. */
module Outcomes {

  /** A value that may be absent. */
  datatype Option<+T> = None | Some(value: T)

  /** Why a run or a reindex pass stopped.
      - UnknownModel: a requested model is not index-enabled (the `ValueError` of `main`).
      - ZeroDivision: `count // boxsize` with a box size of 0.
      - NegativeBoxsize: a negative box size, rejected by the corrected pass.
      - StoreUnavailable: the database or the search index failed while handling box `box`. */
  datatype Error =
    | UnknownModel(name: string)
    | ZeroDivision
    | NegativeBoxsize
    | StoreUnavailable(box: nat)
}

=== FILE: reindex.dfy ===
/** `reindextask`: one model's collection is read box by box in primary-key order and
    every box is sent to the index. */
module Reindex {
  import opened Outcomes
  import opened Documents
  import opened Batching
  import opened SearchIndex

  /** The documents of the boxes sent so far, in the order they were sent. */
  function Concat(batches: seq<seq<Doc>>): seq<Doc>
  {
    if |batches| == 0 then [] else Concat(batches[..|batches| - 1]) + batches[|batches| - 1]
  }

  /** The documents the boxes of `plan` send: box by box, the page it fetches from `rows`,
      projected by `to_dicts`. */
  function Pages(rows: seq<Record>, plan: seq<Box>): seq<seq<Doc>>
  {
    seq(|plan|, i requires 0 <= i < |plan| => ToDicts(Fetch(rows, plan[i])))
  }

  /** One more box sends one more page. */
  lemma PagesStep(rows: seq<Record>, plan: seq<Box>, n: nat)
    requires n < |plan|
    ensures Pages(rows, plan[..n + 1]) == Pages(rows, plan[..n]) + [ToDicts(Fetch(rows, plan[n]))]
  {
  }

  /** Every record of `rows` is indexed as its own document. */
  predicate AllIndexed(indexed: map<Key, Doc>, rows: seq<Record>)
  {
    forall i :: 0 <= i < |rows| ==> rows[i].pk in indexed && indexed[rows[i].pk] == ToDoc(rows[i])
  }

  /** Sending box `n` extends the documents sent so far by the next page, with no gap
      and no overlap. */
  lemma SendBox(rows: seq<Record>, boxsize: nat, n: nat, batches: seq<seq<Doc>>)
    requires boxsize > 0
    requires Concat(batches) == ToDicts(rows[..Min(n * boxsize, |rows|)])
    ensures Concat(batches + [ToDicts(Fetch(rows, Box(n, boxsize)))])
         == ToDicts(rows[..Min((n + 1) * boxsize, |rows|)])
  {
  }

  /** The documents of boxes 0 .. n-1 of the plan: its first `n * boxsize` records. */
  function SentThrough(rows: seq<Record>, boxsize: nat, n: nat): seq<Doc>
  {
    ToDicts(rows[..Min(n * boxsize, |rows|)])
  }

  /** The boxes of the whole plan send the whole collection. */
  lemma SentThroughPlan(rows: seq<Record>, boxsize: nat)
    requires boxsize > 0
    ensures SentThrough(rows, boxsize, |rows| / boxsize + 1) == ToDicts(rows)
  {
    PlanReachesEnd(|rows|, boxsize);
    assert rows[..Min((|rows| / boxsize + 1) * boxsize, |rows|)] == rows;
  }

  /** What a failing pass has already sent, and the index keeps: the boxes before the one
      at which the store fails. A box size that is not positive fails before the first box. */
  function SentBeforeFailure(rows: seq<Record>, boxsize: int, outage: Option<nat>): seq<Doc>
  {
    if boxsize <= 0 || outage.None? then [] else SentThrough(rows, boxsize, outage.value)
  }

  /** Sending box `n` after boxes 0 .. n-1 carries the pass one box further: the documents
      sent, and the index written, extend by box `n`. */
  lemma SendNext(index: IndexState, model: ModelName, rows: seq<Record>, boxsize: nat, n: nat,
                 batches: seq<seq<Doc>>)
    requires boxsize > 0
    requires Concat(batches) == SentThrough(rows, boxsize, n)
    ensures var documents := ToDicts(Fetch(rows, Box(n, boxsize)));
      && Concat(batches + [documents]) == SentThrough(rows, boxsize, n + 1)
      && index.Index(model, Concat(batches)).Index(model, documents)
         == index.Index(model, Concat(batches + [documents]))
  {
    var documents := ToDicts(Fetch(rows, Box(n, boxsize)));
    SendBox(rows, boxsize, n, batches);
    assert (batches + [documents])[..|batches|] == batches;
    IndexAppend(index, model, Concat(batches), documents);
  }

  /** The state the pass leaves when it completes: the model's whole collection written. */
  lemma CompletedPassIndexesAll(index: IndexState, model: ModelName, rows: seq<Record>)
    requires PkOrdered(rows)
    ensures AllIndexed(index.Index(model, ToDicts(rows)).DocsOf(model), rows)
  {
    LatestOfPkOrdered(rows);
  }

  /** The loop of `reindextask` over boxes `0 .. count // boxsize` of a non-empty collection:
      each box is fetched and sent, until the store fails at box `outage`, if it does. */
  method SendBoxes(index: IndexState, model: ModelName, rows: seq<Record>, boxsize: nat, outage: Option<nat>)
    returns (index': IndexState, batches: seq<seq<Doc>>, failure: Option<Error>)
    requires |rows| >= 1 && boxsize > 0
    ensures |batches| <= |Plan(|rows|, boxsize)|
    ensures batches == Pages(rows, Plan(|rows|, boxsize)[..|batches|])
    ensures Concat(batches) == SentThrough(rows, boxsize, |batches|)
    ensures index' == index.Index(model, Concat(batches))
    ensures failure == None <==> outage.None? || outage.value >= |rows| / boxsize + 1
    ensures failure == None ==> |batches| == |rows| / boxsize + 1
    ensures failure != None ==> outage == Some(|batches|) && failure == Some(StoreUnavailable(|batches|))
  {
    index', batches, failure := index, [], None;
    var boxes := |rows| / boxsize;
    ghost var plan := Plan(|rows|, boxsize);
    var n := 0;
    while n < boxes + 1
      invariant 0 <= n <= boxes + 1
      invariant |batches| == n
      invariant batches == Pages(rows, plan[..n])
      invariant Concat(batches) == SentThrough(rows, boxsize, n)
      invariant index' == index.Index(model, Concat(batches))
      invariant outage.None? || outage.value >= n
    {
      if outage == Some(n) {
        failure := Some(StoreUnavailable(n));
        return;
      }
      assert outage.None? || outage.value >= n + 1;
      var documents := ToDicts(Fetch(rows, Box(n, boxsize)));
      assert batches + [documents] == Pages(rows, plan[..n + 1]) by {
        PagesStep(rows, plan, n);
      }
      SendNext(index, model, rows, boxsize, n, batches);
      index' := index'.Index(model, documents);
      batches := batches + [documents];
      n := n + 1;
    }
  }

  /** Reindexing `model` with the `boxsize` given on the command line. The store is
      unavailable from box `outage` on, when that is `Some`; it then raises while that box
      is fetched or written. Returns the index afterwards, the documents sent per box,
      and the failure that ended the pass, if any. */
  method ReindexTask(index: IndexState, model: ModelName, rows: seq<Record>, boxsize: int, outage: Option<nat>)
    returns (index': IndexState, batches: seq<seq<Doc>>, failure: Option<Error>)
    // an empty collection: no fetch, no write
    ensures |rows| < 1 ==> index' == index && batches == [] && failure == None
    // a box size of zero: `count // boxsize` raises before anything is written
    ensures |rows| >= 1 && boxsize == 0 ==> index' == index && batches == [] && failure == Some(ZeroDivision)
    // a negative box size is refused before anything is written
    ensures |rows| >= 1 && boxsize < 0 ==> index' == index && batches == [] && failure == Some(NegativeBoxsize)
    // box n sends the documents of page n, in plan order; all writes are to `model`
    ensures |rows| >= 1 && boxsize > 0 ==>
      var plan := Plan(|rows|, boxsize);
      && |batches| <= |plan|
      && batches == Pages(rows, plan[..|batches|])
      && index' == index.Index(model, Concat(batches))
    // the pass completes unless the store fails at one of its boxes, and stops at that box
    ensures |rows| >= 1 && boxsize > 0 ==>
      && (failure == None <==> outage.None? || outage.value >= |rows| / boxsize + 1)
      && (failure != None ==> outage == Some(|batches|) && failure == Some(StoreUnavailable(|batches|)))
    // the boxes sent so far carry the first records of the collection, in order, with no gap
    ensures |rows| >= 1 && boxsize > 0 ==> Concat(batches) == SentThrough(rows, boxsize, |batches|)
    // a failing pass leaves the boxes it sent before failing in the index
    ensures failure.Some? ==> index' == index.Index(model, SentBeforeFailure(rows, boxsize, outage))
    // a completed pass sent every record exactly once, in primary-key order
    ensures |rows| >= 1 && failure == None ==>
      && |batches| == |rows| / boxsize + 1
      && Concat(batches) == ToDicts(rows)
      && index' == index.Index(model, ToDicts(rows))
    // ... so every record is in the index as its document
    ensures failure == None && PkOrdered(rows) ==> AllIndexed(index'.DocsOf(model), rows)
    // nothing else changes
    ensures index'.mappings == index.mappings
    ensures forall m :: m != model ==> index'.DocsOf(m) == index.DocsOf(m)
  {
    index', batches, failure := index, [], None;
    if |rows| < 1 {
      return;
    }
    if boxsize == 0 {
      failure := Some(ZeroDivision);
      return;
    }
    if boxsize < 0 {
      failure := Some(NegativeBoxsize);
      return;
    }
    index', batches, failure := SendBoxes(index, model, rows, boxsize, outage);
    SentThroughPlan(rows, boxsize);
    if PkOrdered(rows) {
      CompletedPassIndexesAll(index, model, rows);
    }
  }
}

=== FILE: search_index.dfy ===
/** The search index as the index manager sees it: per model a mapping and a set of
    documents keyed by identity; writing is an upsert. */
module SearchIndex {
  import opened Documents

  /** The name of a model, also its document type in the index. */
  type ModelName = string

  /** A model's index mapping (what `get_es_mapping()` returns); its content is not modelled. */
  type Schema = string

  /** The identities carried by a batch of documents. */
  function Ids(batch: seq<Doc>): set<Key>
  {
    set d | d in batch :: d.id
  }

  /** What writing `batch` in order leaves for each identity: the last document of the
      batch with that identity. */
  function Latest(batch: seq<Doc>): (latest: map<Key, Doc>)
    ensures latest.Keys == Ids(batch)
    ensures forall k :: k in latest ==> latest[k].id == k && latest[k] in batch
  {
    if |batch| == 0 then map[]
    else
      var init, d := batch[..|batch| - 1], batch[|batch| - 1];
      assert batch == init + [d];
      Latest(init)[d.id := d]
  }

  /** `es.index(documents)`: the documents are written one after the other; one whose
      identity is already indexed replaces the indexed one, the others are added. */
  function Upsert(indexed: map<Key, Doc>, batch: seq<Doc>): (r: map<Key, Doc>)
    ensures r.Keys == indexed.Keys + Ids(batch)
    ensures forall k :: k in indexed && k !in Ids(batch) ==> r[k] == indexed[k]
    ensures forall k :: k in Ids(batch) ==> r[k] == Latest(batch)[k]
  {
    if |batch| == 0 then indexed
    else
      var init, d := batch[..|batch| - 1], batch[|batch| - 1];
      assert batch == init + [d];
      Upsert(indexed, init)[d.id := d]
  }

  /** Updating a union updates its right-hand operand. */
  lemma UnionUpdate<K, V>(m1: map<K, V>, m2: map<K, V>, k: K, v: V)
    ensures (m1 + m2)[k := v] == m1 + m2[k := v]
  {
  }

  /** Writing `a` and then `b` leaves, per identity, the last document of `a + b`. */
  lemma {:induction false} LatestAppend(a: seq<Doc>, b: seq<Doc>)
    ensures Latest(a + b) == Latest(a) + Latest(b)
  {
    if |b| == 0 {
      assert a + b == a;
    } else {
      var init, d := b[..|b| - 1], b[|b| - 1];
      assert (a + b)[..|a + b| - 1] == a + init;
      assert (a + b)[|a + b| - 1] == d;
      calc {
        Latest(a + b);
        Latest(a + init)[d.id := d];
        { LatestAppend(a, init); }
        (Latest(a) + Latest(init))[d.id := d];
        { UnionUpdate(Latest(a), Latest(init), d.id, d); }
        Latest(a) + Latest(init)[d.id := d];
      }
    }
  }

  /** `Upsert` overrides the indexed documents with the batch's last documents. */
  lemma UpsertIsUnion(indexed: map<Key, Doc>, batch: seq<Doc>)
    ensures Upsert(indexed, batch) == indexed + Latest(batch)
  {
  }

  /** Map union is associative. */
  lemma UnionAssociative<K, V>(m1: map<K, V>, m2: map<K, V>, m3: map<K, V>)
    ensures (m1 + m2) + m3 == m1 + (m2 + m3)
  {
  }

  /** Two `es.index` calls in a row act as one call on the concatenated batches. */
  lemma UpsertAppend(indexed: map<Key, Doc>, a: seq<Doc>, b: seq<Doc>)
    ensures Upsert(Upsert(indexed, a), b) == Upsert(indexed, a + b)
  {
    calc {
      Upsert(Upsert(indexed, a), b);
      { UpsertIsUnion(Upsert(indexed, a), b); }
      Upsert(indexed, a) + Latest(b);
      { UpsertIsUnion(indexed, a); }
      indexed + Latest(a) + Latest(b);
      { UnionAssociative(indexed, Latest(a), Latest(b)); }
      indexed + (Latest(a) + Latest(b));
      { LatestAppend(a, b); }
      indexed + Latest(a + b);
      { UpsertIsUnion(indexed, a + b); }
      Upsert(indexed, a + b);
    }
  }

  /** Sending the same batch again changes nothing. */
  lemma UpsertIdempotent(indexed: map<Key, Doc>, batch: seq<Doc>)
    ensures Upsert(Upsert(indexed, batch), batch) == Upsert(indexed, batch)
  {
  }

  /** A batch whose documents are all indexed already, with the same content, leaves the
      index as it was. Document versions are not modelled. */
  lemma UpsertOfPresentIsNoop(indexed: map<Key, Doc>, batch: seq<Doc>)
    requires forall d :: d in batch ==> d.id in indexed && indexed[d.id] == d
    ensures Upsert(indexed, batch) == indexed
  {
  }

  /** The identities of the documents are the records' primary keys. */
  lemma IdsOfToDicts(rows: seq<Record>)
    ensures Ids(ToDicts(rows)) == Pks(rows)
  {
    var docs := ToDicts(rows);
    forall k | k in Pks(rows) ensures k in Ids(docs) {
      var r :| r in rows && r.pk == k;
      var i :| 0 <= i < |rows| && rows[i] == r;
      assert docs[i].id == k;
    }
  }

  /** The last record's document is written last. */
  lemma LatestOfLast(rows: seq<Record>)
    requires |rows| > 0
    ensures Latest(ToDicts(rows))
         == Latest(ToDicts(rows[..|rows| - 1]))[rows[|rows| - 1].pk := ToDoc(rows[|rows| - 1])]
  {
    var docs := ToDicts(rows);
    var init, last := rows[..|rows| - 1], rows[|rows| - 1];
    assert rows == init + [last];
    ToDictsAppend(init, [last]);
    assert docs[..|docs| - 1] == ToDicts(init);
  }

  /** For pk-ordered records (strictly increasing primary keys), writing their documents
      in order leaves exactly one document per record, the record's own projection. */
  lemma {:induction false} LatestOfPkOrdered(rows: seq<Record>)
    requires PkOrdered(rows)
    ensures Latest(ToDicts(rows)).Keys == Pks(rows)
    ensures forall i :: 0 <= i < |rows| ==> Latest(ToDicts(rows))[rows[i].pk] == ToDoc(rows[i])
  {
    IdsOfToDicts(rows);
    if |rows| > 0 {
      var docs := ToDicts(rows);
      var init, last := rows[..|rows| - 1], rows[|rows| - 1];
      LatestOfLast(rows);
      assert PkOrdered(init) by {
        forall i, j | 0 <= i < j < |init| ensures init[i].pk < init[j].pk {
          assert init[i] == rows[i] && init[j] == rows[j];
        }
      }
      LatestOfPkOrdered(init);
      forall i | 0 <= i < |rows|
        ensures Latest(docs)[rows[i].pk] == ToDoc(rows[i])
      {
        if i < |rows| - 1 {
          assert rows[i] == init[i];
          assert rows[i].pk < last.pk;
        }
      }
    }
  }

  /** The index: per model (document type) its mapping and its documents. */
  datatype IndexState = IndexState(mappings: map<ModelName, Schema>, docs: map<ModelName, map<Key, Doc>>)
  {
    /** The documents indexed under `model`'s document type. */
    function DocsOf(model: ModelName): map<Key, Doc>
    {
      if model in docs then docs[model] else map[]
    }

    /** `ES(model).index(batch)`: an upsert into `model`'s documents; no other model's
        documents and no mapping change. An empty batch sends nothing. */
    function Index(model: ModelName, batch: seq<Doc>): (s: IndexState)
      ensures s.mappings == mappings
      ensures s.DocsOf(model).Keys == DocsOf(model).Keys + Ids(batch)
      ensures forall m :: m != model ==> s.DocsOf(m) == DocsOf(m)
    {
      if |batch| == 0 then this
      else IndexState(mappings, docs[model := Upsert(DocsOf(model), batch)])
    }

    /** `recreate_mapping(model)`: deleting the model's mapping drops every document of
        that type; the model's mapping is then put back. Other models are untouched. */
    function RecreateMapping(model: ModelName, schema: Schema): (s: IndexState)
      ensures s.DocsOf(model) == map[]
      ensures model in s.mappings && s.mappings[model] == schema
      ensures forall m :: m != model ==> s.DocsOf(m) == DocsOf(m)
      ensures forall m :: m != model && m in mappings ==> m in s.mappings && s.mappings[m] == mappings[m]
    {
      IndexState(mappings[model := schema], docs - {model})
    }
  }

  /** `recreate_index()`: the index is deleted and created empty, then the mapping of every
      index-enabled model is pushed. */
  function RecreateIndex(schemas: map<ModelName, Schema>): IndexState
  {
    IndexState(schemas, map[])
  }

  /** After `es.index`, the model holds its earlier documents overridden by the batch's
      last document per identity. */
  lemma IndexIsUnion(s: IndexState, model: ModelName, batch: seq<Doc>)
    ensures s.Index(model, batch).DocsOf(model) == s.DocsOf(model) + Latest(batch)
  {
  }

  /** Two writes to the same model act as one write of both batches. */
  lemma IndexAppend(s: IndexState, model: ModelName, a: seq<Doc>, b: seq<Doc>)
    ensures s.Index(model, a).Index(model, b) == s.Index(model, a + b)
  {
    if |a| == 0 {
      assert a + b == b;
    } else if |b| == 0 {
      assert a + b == a;
    } else {
      IndexAppendSent(s, model, a, b);
    }
  }

  /** `IndexAppend` when both batches are sent. */
  lemma IndexAppendSent(s: IndexState, model: ModelName, a: seq<Doc>, b: seq<Doc>)
    requires |a| > 0 && |b| > 0
    ensures s.Index(model, a).Index(model, b) == s.Index(model, a + b)
  {
    var x := Upsert(s.DocsOf(model), a);
    IndexUnfold(s, model, a);
    IndexUnfold(s.Index(model, a), model, b);
    IndexUnfold(s, model, a + b);
    UpsertAppend(s.DocsOf(model), a, b);
    UpdateTwice(s.docs, model, x, Upsert(x, b));
  }

  /** A sent batch replaces the model's documents by their upsert. */
  lemma IndexUnfold(s: IndexState, model: ModelName, batch: seq<Doc>)
    requires |batch| > 0
    ensures s.Index(model, batch) == IndexState(s.mappings, s.docs[model := Upsert(s.DocsOf(model), batch)])
  {
  }

  /** A second update of the same key overrides the first. */
  lemma UpdateTwice<K, V>(m: map<K, V>, k: K, v: V, w: V)
    ensures m[k := v][k := w] == m[k := w]
  {
  }

  /** Re-sending a batch to the same model leaves the whole index unchanged. */
  lemma IndexIdempotent(s: IndexState, model: ModelName, batch: seq<Doc>)
    ensures s.Index(model, batch).Index(model, batch) == s.Index(model, batch)
  {
    UpsertIdempotent(s.DocsOf(model), batch);
  }

  /** After a mapping reset, indexing `batch` leaves exactly the batch's documents under the model. */
  lemma ResetThenIndexIsExact(s: IndexState, model: ModelName, schema: Schema, batch: seq<Doc>)
    ensures s.RecreateMapping(model, schema).Index(model, batch).DocsOf(model) == Latest(batch)
  {
  }
}
